=== FILE: README.md ===
# V2X authentication backend: a Dafny model of the request-handling core

The backend gives vehicles a ledger-backed identity and authenticates them
by challenge and response. A vehicle asks for a nonce, signs it with its
registered key, and presents the signature. The backend also keeps
process-local bookkeeping:

- the list of vehicles registered through it;
- an index from normalised mobile numbers to vehicle ids;
- one simulated-telemetry timer per vehicle;
- one detached chain-mode worker per vehicle;
- the latest telemetry sample of each vehicle;
- an append-only accident log.

This project models those in-memory stores and every route of
`backend/src/routes/auth.ts` and `backend/src/routes/gps.ts`. Each route is a
pure transition `(state, request, collaborator answers) -> (response, state)`.
The ledger client (`isVehicleActive`, `getVehicle`, `registerVehicle`,
`revokeVehicle`) is not modelled. Its replies come in as values: a reply, or a
thrown error with an optional `code` and `message`. The signature library is
also an input: a record of three functions standing for `verifyMessage`,
`getAddress` and `isAddress`, where the first two may throw. Random values are
inputs too: `randomUUID`, `Wallet.createRandom`, `Math.random` and `Date.now`.

Layout, one module per concern:

- `base.dfy`: `Base` (Option, Result) and `Js` (JSON values, JavaScript
  truthiness, `||` defaults).
- `mobile.dfy`: `Mobile`, the `normalizeMobile` digit filter.
- `insertion_map.dfy`: `InsertionMap`, a JavaScript `Map` with
  insertion-ordered enumeration, used for the telemetry store.
- `entities.dfy`: `Entities`, the stored records.
- `http.dfy`: `Http`, status codes and response bodies.
- `oracles.dfy`: `Oracles`, ledger replies, the signature functions and
  random draws.
- `telemetry.dfy`: `Telemetry`, the routes of `gps.ts`.
- `workers.dfy`: `Workers`, the simulated timers, their ticks, and the
  start-chain worker table.
- `registry.dfy`: `Registry`, which handles register, revoke, lookup, the
  registered list and status.
- `authenticator.dfy`: `Authenticator`, nonce issue and authentication.
- `backend.dfy`: `Backend`, the whole state, one `Event` per route or internal
  event, `Step`/`Run`, and properties over runs.

Behaviour of the code that a reader might not expect, and that the model keeps:

- An authentication attempt deletes the nonce only on the path that reaches
  the signature comparison (auth.ts line 251). An inactive or missing
  vehicle record (403), a throwing ledger read, and a throwing
  `verifyMessage` or `getAddress` (500) all leave the nonce in place.
  `Authenticator.Authenticate` and `Authenticator.FailedAttemptKeepsNonce`
  state this.
- Any ledger error whose code is `CALL_EXCEPTION` is read as "already
  registered". The reply then reports the requested address, even when the
  list keeps an earlier one (`Registry.RevertReportsRequestedAddress`).
- A mobile number with no digits normalises to the empty key. Every such
  lookup then finds the last vehicle registered that way
  (`Registry.DigitlessMobilesCollide`).

## Model

| member | source | states |
|---|---|---|
| Mobile.Normalize | backend/src/routes/auth.ts:14 | the normalised number holds only ASCII digits and is no longer than the input |
| Mobile.NormalizeAppend | backend/src/routes/auth.ts:14 | normalising a concatenation is the concatenation of the normalised parts: the filter works character by character, keeping order |
| Mobile.NormalizeDigits | backend/src/routes/auth.ts:14 | a string of digits is already normal: every digit is kept |
| Mobile.NormalizeNoDigits | backend/src/routes/auth.ts:14 | a string without digits normalises to the empty key: every non-digit is dropped |
| Mobile.NormalizeIdempotent | backend/src/routes/auth.ts:14 | normalising twice gives the same key as normalising once |
| Mobile.NormalizeFormat | backend/src/routes/auth.ts:14 | any formatting of a digit string, with arbitrary digit-free separators around the digits, normalises back to that digit string |
| Js.Truthy | backend/src/routes/gps.ts:11 | the body is the specification: JavaScript truthiness of a body field, false exactly for a missing field, `null`, `false`, 0, and the empty string |
| Js.Present | backend/src/routes/auth.ts:106 | the body is the specification: a string field passes `!field` exactly when it is present and non-empty |
| Js.OrElse | backend/src/routes/gps.ts:15 | the JavaScript or-default of a body field is the field itself when it is truthy and the fallback otherwise |
| Js.Millis | backend/src/routes/gps.ts:15 | `Date.now()` as a JSON number, falsy only at time 0, so the timestamp default is truthy |
| InsertionMap.Set | backend/src/routes/gps.ts:16 | `Map.set` keeps every key once; a new key goes at the end of the enumeration order and an existing key keeps its place |
| InsertionMap.Values | backend/src/routes/gps.ts:32 | `Array.from(m.values())` lists one value per key, position by position along the insertion order |
| InsertionMap.ValuesAlong | backend/src/routes/gps.ts:32 | the enumerated values are, position by position, the values of the keys in insertion order |
| Telemetry.Put | backend/src/routes/gps.ts:16 | storing a sample makes it that vehicle's entry, keeps every sample filed under its own id, and leaves the accident log alone; a known vehicle keeps its place in the enumeration order and a new one goes last |
| Telemetry.PostUpdate | backend/src/routes/gps.ts:9-21 | 400 "Missing GPS data" exactly when `vehicleId`, `lat` or `long` is falsy (so lat 0 or long 0 is refused), with the store unchanged; otherwise only that vehicle's entry changes, and the other entries and the accident log stay as they were |
| Telemetry.ZeroCoordinateRejected | backend/src/routes/gps.ts:11-13 | an update with latitude 0 or longitude 0 is refused with 400 and changes nothing |
| Telemetry.UpdateThenLatest | backend/src/routes/gps.ts:15-27 | after a valid update, `/latest` for that id returns the posted sample, with a missing or falsy timestamp replaced by the current time |
| Telemetry.Latest | backend/src/routes/gps.ts:23-28 | returns the stored sample for the id, or 404 "No data found" when the store holds none for it |
| Telemetry.All | backend/src/routes/gps.ts:31-34 | lists one sample per stored key, in first-update order |
| Telemetry.AllOnePerVehicle | backend/src/routes/gps.ts:31-34 | `/all` holds exactly one sample per vehicle id in the store (no id twice, none missing), and it is that vehicle's latest |
| Telemetry.StoredIsListed | backend/src/routes/gps.ts:31-34 | a vehicle with a stored sample appears in `/all` |
| Telemetry.ReportAccident | backend/src/routes/gps.ts:36-42 | appends exactly one record, with the posted fields unvalidated and the timestamp defaulting to now; earlier records and the telemetry map are unchanged |
| Telemetry.Accidents | backend/src/routes/gps.ts:44-46 | returns the whole accident log |
| Workers.StartSimulated | backend/src/routes/auth.ts:139-168 | at most one timer per id: a running id yields `already_running` and nothing changes; otherwise exactly that id gains a timer at the fixed start position |
| Workers.StartClient | backend/src/routes/auth.ts:170-179 | an empty id is refused with 400 and nothing changes; otherwise reports started or already running, and afterwards the id has a timer (a new one at the start position), every other timer keeps its position and the chain workers are untouched |
| Workers.TickSpeed | backend/src/routes/auth.ts:151-152 | a tick's speed is 0 exactly when the stop draw exceeds 0.95, and otherwise lies in [20, 79] |
| Workers.TickSpeedRange | backend/src/routes/auth.ts:151-152 | every value in {0} ∪ [20, 79] is produced by some pair of draws, so the range above is exact |
| Workers.Tick | backend/src/routes/auth.ts:148-163 | a tick moves the timer's position by at most 0.0005 per coordinate and overwrites only its own vehicle's sample, whose speed obeys the speed rule; the vehicle keeps its place in the enumeration order, or goes last on its first sample; other timers, samples and the accident log are untouched |
| Workers.ChainKeyInjective | backend/src/routes/auth.ts:193 | distinct vehicle ids never share a worker key `vehicleId + ":chain"` |
| Workers.ChainKey | backend/src/routes/auth.ts:193 | the worker key is the vehicle id followed by six more characters, so the id can be read back from its key |
| Workers.StartChain | backend/src/routes/auth.ts:181-222 | 400 exactly when the id or private key is missing ("vehicleId is required" first, then "privateKey is required"); the worker table changes exactly when the key is free and the spawn succeeds, and then only by that key; a taken key answers `already_running`; a throwing spawn answers 500 with its message (default "Failed to start chain vehicle client") and registers nothing |
| Workers.ChainExit | backend/src/routes/auth.ts:213-215 | a worker exit removes exactly its key and no other entry |
| Workers.ExitThenRestart | backend/src/routes/auth.ts:193-217 | after the worker's exit a new start for that vehicle is accepted |
| Registry.Find | backend/src/routes/auth.ts:66 | `find` succeeds exactly when some entry has the id, and returns such an entry |
| Registry.FirstSegment | backend/src/routes/auth.ts:32 | `split('-')[0]` is the longest prefix of the UUID without a '-': it is a prefix, holds no '-', and stops at a '-' or at the end |
| Registry.UpperChar | backend/src/routes/auth.ts:32 | the body is the specification: an ASCII lower-case letter maps to its upper-case letter, every other character to itself |
| Registry.Upper | backend/src/routes/auth.ts:32 | on ASCII text, `toUpperCase()` keeps the length and upper-cases each character in place |
| Registry.GeneratedId | backend/src/routes/auth.ts:27-34 | a generated id is `V2X-` followed by the UUID's characters up to its first '-' (or all of them), each upper-cased |
| Registry.FinalId | backend/src/routes/auth.ts:27-34 | the id registered is never empty; it is the caller's id whenever one was given, and the id generated from the UUID otherwise |
| Registry.FinalAddress | backend/src/routes/auth.ts:36-46 | the body is the specification: the caller's address when it is a non-empty string, otherwise the generated wallet's address |
| Registry.Acceptable | backend/src/routes/auth.ts:40-52 | the body is the specification: a request passes validation when it has an address or a mobile number and the final address passes `isAddress` |
| Registry.Absorbed | backend/src/routes/auth.ts:54-62 | the body is the specification: registration goes on after a confirmed write, or after an error whose `code` is exactly `CALL_EXCEPTION` |
| Registry.Register | backend/src/routes/auth.ts:19-86 | refuses (400, no ledger write, no change) with "Either vehicleAddress or mobileNumber is required" when both are missing, and with "Invalid vehicleAddress" when the final address fails `isAddress`; a `CALL_EXCEPTION` is absorbed (201, txHash null); any other ledger error returns 500 with the list and the index unchanged; the list grows only by a new id at its end; the index changes only at the normalised mobile key; ids stay unique |
| Registry.ReRegisterKeepsFirst | backend/src/routes/auth.ts:66-68 | registering an id already listed leaves the list unchanged and keeps the first address |
| Registry.RegisterTwiceOneEntry | backend/src/routes/auth.ts:54-68 | two identical registrations both report 201 and leave exactly one entry for the id |
| Registry.RevertReportsRequestedAddress | backend/src/routes/auth.ts:54-81 | a reverted write with a different address still answers 201 with the requested address, while the list keeps the first one |
| Registry.Revoke | backend/src/routes/auth.ts:88-101 | 400 without an id; otherwise submits exactly the revoke write, answering 200 with the transaction hash or 500 with the error message; no local store changes |
| Registry.Lookup | backend/src/routes/auth.ts:124-133 | finds an id exactly when the normalised number is a key of the index with a non-empty id; 404 otherwise |
| Registry.LookupAnyFormatting | backend/src/routes/auth.ts:70-72 | after a successful registration with a mobile number, a lookup with any digit-free formatting of that number finds the registered id |
| Registry.DigitlessMobilesCollide | backend/src/routes/auth.ts:70-72 | after a registration whose mobile number has no digits, any digitless lookup finds that vehicle |
| Registry.ListRegistered | backend/src/routes/auth.ts:135-137 | returns the registered list |
| Registry.Status | backend/src/routes/auth.ts:268-287 | 500 on a ledger error and 404 on a missing record, with nothing started; a found record, active or not, is reported and leaves the vehicle with a running timer |
| Authenticator.IssueNonce | backend/src/routes/auth.ts:103-122 | a nonce is issued exactly when the id is present and the ledger says active; a missing id gets 400 "vehicleId is required", an inactive vehicle 403 "Vehicle not active or not registered", and a throwing ledger read 500 with its message (default "Internal error"); every refusal leaves the store unchanged; an issued nonce replaces any earlier one for that id and no other id changes |
| Authenticator.Complete | backend/src/routes/auth.ts:232 | the body is the specification: `vehicleId`, `nonce` and `signature` are all present and non-empty |
| Authenticator.NonceMatches | backend/src/routes/auth.ts:236-237 | the body is the specification: the store holds a non-empty nonce for the id (`!expectedNonce` fails otherwise) and it equals the presented one |
| Authenticator.ActiveRecord | backend/src/routes/auth.ts:241-242 | the body is the specification: the ledger read returned a record and it is active |
| Authenticator.Comparable | backend/src/routes/auth.ts:247-248 | the body is the specification: `verifyMessage` and both `getAddress` calls return without throwing |
| Authenticator.SignedBy | backend/src/routes/auth.ts:247-248 | the body is the specification: the canonical recovered signer equals the canonical registered address |
| Authenticator.Authenticate | backend/src/routes/auth.ts:224-266 | authenticated exactly when the stored nonce equals the presented one, the re-read record exists and is active, and the canonical recovered signer equals the canonical registered address; an incomplete request gets 400; a missing or different nonce gives 401 "Invalid or expired nonce"; past that check a missing or inactive record gets 403 "Vehicle not active or not registered", and a throwing ledger read, `verifyMessage` or `getAddress` (checked in that order) gets 500 with the thrown message (default "Internal error"); a reached comparison that fails gets 401 "Signature does not match registered vehicle"; the nonce is removed exactly when the attempt reaches the comparison, whatever its verdict, and every other refusal leaves the store unchanged |
| Authenticator.ReplayRejected | backend/src/routes/auth.ts:236-255 | replaying a triplet after an attempt that reached a verdict is rejected as an invalid nonce, whatever the ledger and the signature library answer the second time |
| Authenticator.ReissueInvalidatesPrior | backend/src/routes/auth.ts:115-116 | after a second nonce is issued, authenticating with the first fails as an invalid nonce and the second stays outstanding |
| Authenticator.FailedAttemptKeepsNonce | backend/src/routes/auth.ts:241-264 | an attempt that stops before the comparison (missing or inactive record, throwing ledger read, throwing signature library) is refused and keeps the nonce, so a later attempt with an active record and a good signature still succeeds |
| Authenticator.RevokedCannotAuthenticate | backend/src/routes/auth.ts:241-244 | a vehicle whose ledger record is inactive is never authenticated |
| Backend.Step | backend/src/index.ts:22-24 | every route keeps the stores well formed; the accident log, registered list, ledger-write log and telemetry enumeration order only grow at the end; telemetry samples, mobile-index entries and timers are never removed; the read-only routes (lookup, registered list, latest, all, accidents) change nothing; only nonce routes touch the nonce store, only registration the registry, only updates, ticks and accident reports the telemetry store, only start-chain and worker exits the worker table; an accident report adds exactly one record |
| Backend.Run | backend/src/index.ts:22-24 | over any sequence of events, one response per event, the stores stay well formed, and the logs, the enumeration order, the telemetry and mobile-index keys and the timer set only grow |
| Backend.RunAccidentCount | backend/src/routes/gps.ts:36-42 | over any run the accident log grows by exactly the number of accident reports |
| Backend.UpdateStores | backend/src/routes/gps.ts:11-16 | an accepted telemetry update leaves a stored sample for its vehicle |
| Backend.UpdateStaysListed | backend/src/routes/gps.ts:9-34 | after an accepted telemetry update for a vehicle, `/all` lists that vehicle after any later run of events |
| Backend.StepKeepsSpent | backend/src/routes/auth.ts:236-251 | unless the same nonce is issued to the vehicle again, no route makes a spent nonce outstanding, and an attempt presenting it is refused (as an invalid nonce when the request is complete) |
| Backend.VerdictSpends | backend/src/routes/auth.ts:247-251 | an attempt that reaches the signature comparison leaves its nonce spent |
| Backend.SpentNonceNeverAccepted | backend/src/routes/auth.ts:236-239 | over any run that does not re-issue it, every attempt presenting a spent nonce is refused, as an invalid nonce when the request is complete |
| Backend.ReplayNeverSucceeds | backend/src/routes/auth.ts:236-255 | after an attempt reaches a verdict, no later attempt with that vehicle and nonce succeeds in any run of atomically handled requests, whatever other events come between, unless the same nonce is issued again |
| Backend.ChallengeResponseScenario | backend/src/routes/auth.ts:103-266 | nonce for an active vehicle, then a signature by its registered key: the first attempt is authenticated and an immediate replay is refused as an invalid nonce |

## Left out

- Ledger semantics: the contract behind `backend/src/blockchain.ts`, the keccak256 id hashing and the transaction wait are not modelled. Their replies are inputs of each event. So "revoke, then a nonce request is refused" holds only when the ledger reports the vehicle inactive afterwards.
- Cryptography: `verifyMessage`, `getAddress`, `isAddress`, `randomUUID` and `Wallet.createRandom` are uninterpreted inputs.
- Floating point: latitude, longitude and `Math.random` draws are exact reals, so IEEE rounding, NaN and -0 are not modelled.
- Workers.Tick: the drift bound is stated on exact reals, not on doubles.
- Timers: the 2-second `setInterval` period and the scheduling are not modelled. A tick is an event that only a running timer can produce, and timers are never stopped (the code has no stop).
- Processes: `spawn` is an input that yields a handle or throws. The child's environment, an asynchronous `error` event and the `npm` command line are not modelled.
- Concurrency: each handler is one atomic transition. Interleavings across the `await`s of the ledger calls are not modelled. So the single-use guarantee of a nonce (`Backend.ReplayNeverSucceeds`) holds only for attempts that do not overlap: in the code, the `await` of `getVehicle` (auth.ts line 241) sits between the nonce check (line 237) and its deletion (line 251), so two overlapping attempts with the same triplet can both be authenticated.
- Request typing: id, nonce, signature, address and mobile fields are optional strings. Non-string JSON values in those fields are not modelled (they would make `replace` throw, or key a `Map` by a non-string). Telemetry coordinates, speed, timestamps and accident fields are general JSON values.
- Registry.GeneratedId: `toUpperCase` is modelled on ASCII letters only; a UUID is hexadecimal.
- Registry.Status: the reply is modelled as "record or none". The client in `blockchain.ts` always returns an object, so the code never reaches the 404 branch in practice.
- Logging (`console`, `process.stdout.write`) and the response serialisation of `BigInt` timestamps are omitted.
- `backend/src/routes/payment.ts`, the frontend and `scripts/deploy.ts` are not part of this model.
- `backend/src/vehicleClient.ts`, which also submits accidents to the ledger and pays tolls at random, is left out.

=== FILE: authenticator.dfy ===
/** The challenge-response authenticator: one outstanding nonce per vehicle
    id, issued only to vehicles the ledger reports active, and consumed by
    the authentication attempt that reaches the signature comparison. */
module Authenticator {
  import opened Base
  import opened Js
  import opened Entities
  import opened Http
  import opened Oracles

  /** `nonces`: vehicle id to the outstanding nonce. A map, so a vehicle has
      at most one outstanding nonce at any time. */
  type NonceStore = map<string, string>

  const NOT_ACTIVE := "Vehicle not active or not registered"
  const FIELDS_REQUIRED := "vehicleId, nonce and signature are required"
  const INVALID_NONCE := "Invalid or expired nonce"
  const SIGNATURE_MISMATCH := "Signature does not match registered vehicle"

  /** POST /vehicles/nonce, with the ledger's `isVehicleActive` reply and a fresh `randomUUID()` value. */
  function IssueNonce(nonces: NonceStore, vehicleId: Option<string>, active: Ledger<bool>, uuid: string): (r: (Response, NonceStore))
    ensures r.0.status == OK <==> Present(vehicleId) && active == Replied(true)
    // rejected requests leave the store alone
    ensures r.0.status != OK ==> r.1 == nonces
    ensures !Present(vehicleId) ==> r == (Fail(BAD_REQUEST, VEHICLE_ID_REQUIRED), nonces)
    ensures Present(vehicleId) && active == Replied(false) ==> r.0 == Fail(FORBIDDEN, NOT_ACTIVE)
    // a throwing ledger read is a server error, never reported as an inactive vehicle
    ensures Present(vehicleId) && active.Threw? ==> r == (Fail(SERVER_ERROR, active.error.message.GetOr(INTERNAL_ERROR)), nonces)
    // an issued nonce replaces any prior one for that id; other ids are untouched
    ensures r.0.status == OK ==>
      && r.0 == Reply(OK, NonceIssued(uuid))
      && vehicleId.value in r.1 && r.1[vehicleId.value] == uuid
      && r.1.Keys == nonces.Keys + {vehicleId.value}
      && (forall id :: id in nonces && id != vehicleId.value ==> r.1[id] == nonces[id])
  {
    if !Present(vehicleId) then (Fail(BAD_REQUEST, VEHICLE_ID_REQUIRED), nonces)
    else match active
      case Threw(e) => (Fail(SERVER_ERROR, e.message.GetOr(INTERNAL_ERROR)), nonces)
      case Replied(false) => (Fail(FORBIDDEN, NOT_ACTIVE), nonces)
      case Replied(true) => (Reply(OK, NonceIssued(uuid)), nonces[vehicleId.value := uuid])
  }

  datatype AuthRequest = AuthRequest(vehicleId: Option<string>, nonce: Option<string>, signature: Option<string>)

  predicate Complete(req: AuthRequest) {
    Present(req.vehicleId) && Present(req.nonce) && Present(req.signature)
  }

  /** The store holds a (truthy) nonce for the id, textually equal to the presented one. */
  predicate NonceMatches(nonces: NonceStore, vehicleId: string, nonce: string) {
    vehicleId in nonces && nonces[vehicleId] != "" && nonces[vehicleId] == nonce
  }

  /** The ledger re-read found the vehicle, and it is active. */
  predicate ActiveRecord(record: Ledger<Option<VehicleRecord>>) {
    record.Replied? && record.value.Some? && record.value.value.active
  }

  /** The signature library got through: the signer was recovered and both
      addresses canonicalised, so there is a verdict to give. */
  predicate Comparable(crypto: Crypto, nonce: string, signature: string, address: string) {
    crypto.recover(nonce, signature).Ok?
    && crypto.canon(crypto.recover(nonce, signature).value).Ok?
    && crypto.canon(address).Ok?
  }

  /** The signer of `signature` over `nonce` is the registered address, up to canonical form. */
  predicate SignedBy(crypto: Crypto, nonce: string, signature: string, address: string) {
    Comparable(crypto, nonce, signature, address)
    && crypto.canon(crypto.recover(nonce, signature).value).value == crypto.canon(address).value
  }

  /** The attempt gets as far as the nonce deletion. */
  predicate ReachesVerdict(nonces: NonceStore, req: AuthRequest, record: Ledger<Option<VehicleRecord>>, crypto: Crypto) {
    && Complete(req)
    && NonceMatches(nonces, req.vehicleId.value, req.nonce.value)
    && ActiveRecord(record)
    && Comparable(crypto, req.nonce.value, req.signature.value, record.value.value.vehicleAddress)
  }

  /** POST /vehicles/authenticate, with the ledger's `getVehicle` reply. */
  function Authenticate(nonces: NonceStore, req: AuthRequest, record: Ledger<Option<VehicleRecord>>, crypto: Crypto): (r: (Response, NonceStore))
    // authenticated exactly when the nonce matches, the vehicle is active, and the signer is the registered address
    ensures r.0.status == OK <==>
      && Complete(req)
      && NonceMatches(nonces, req.vehicleId.value, req.nonce.value)
      && ActiveRecord(record)
      && SignedBy(crypto, req.nonce.value, req.signature.value, record.value.value.vehicleAddress)
    ensures r.0.status == OK ==> r.0 == Reply(OK, AuthGranted(req.vehicleId.value, record.value.value.vehicleAddress))
    // an incomplete request is refused before anything is looked at
    ensures !Complete(req) ==> r == (Fail(BAD_REQUEST, FIELDS_REQUIRED), nonces)
    // no nonce, or a different one: rejected and the store is untouched
    ensures Complete(req) && !NonceMatches(nonces, req.vehicleId.value, req.nonce.value) ==>
      r == (Fail(UNAUTHORIZED, INVALID_NONCE), nonces)
    // the nonce is consumed exactly when the attempt reaches a verdict, whatever the verdict
    ensures ReachesVerdict(nonces, req, record, crypto) ==> r.1 == nonces - {req.vehicleId.value}
    ensures !ReachesVerdict(nonces, req, record, crypto) ==> r.1 == nonces
    ensures ReachesVerdict(nonces, req, record, crypto) && r.0.status != OK ==>
      r.0 == Reply(UNAUTHORIZED, AuthRejected(SIGNATURE_MISMATCH))
    // past the nonce check: a missing or inactive record is forbidden, a
    // throwing ledger read or signature library is a server error
    ensures Complete(req) && NonceMatches(nonces, req.vehicleId.value, req.nonce.value) ==>
      && (record.Replied? && !ActiveRecord(record) ==> r == (Fail(FORBIDDEN, NOT_ACTIVE), nonces))
      && (record.Threw? ==> r == (Fail(SERVER_ERROR, record.error.message.GetOr(INTERNAL_ERROR)), nonces))
      && (ActiveRecord(record) && !Comparable(crypto, req.nonce.value, req.signature.value, record.value.value.vehicleAddress) ==>
            r.0.status == SERVER_ERROR && r.0.body.Error? && r.1 == nonces)
    // a throwing `verifyMessage`, then either `getAddress`, in evaluation order: 500 with its message
    ensures Complete(req) && NonceMatches(nonces, req.vehicleId.value, req.nonce.value) && ActiveRecord(record) ==>
      var recovered := crypto.recover(req.nonce.value, req.signature.value);
      var registered := crypto.canon(record.value.value.vehicleAddress);
      && (recovered.Err? ==> r == (Fail(SERVER_ERROR, recovered.message.GetOr(INTERNAL_ERROR)), nonces))
      && (recovered.Ok? && crypto.canon(recovered.value).Err? ==>
            r == (Fail(SERVER_ERROR, crypto.canon(recovered.value).message.GetOr(INTERNAL_ERROR)), nonces))
      && (recovered.Ok? && crypto.canon(recovered.value).Ok? && registered.Err? ==>
            r == (Fail(SERVER_ERROR, registered.message.GetOr(INTERNAL_ERROR)), nonces))
  {
    if !Complete(req) then (Fail(BAD_REQUEST, FIELDS_REQUIRED), nonces)
    else
      var id, nonce, signature := req.vehicleId.value, req.nonce.value, req.signature.value;
      if id !in nonces || nonces[id] == "" || nonces[id] != nonce then (Fail(UNAUTHORIZED, INVALID_NONCE), nonces)
      else match record
        case Threw(e) => (Fail(SERVER_ERROR, e.message.GetOr(INTERNAL_ERROR)), nonces)
        case Replied(found) =>
          if found.None? || !found.value.active then (Fail(FORBIDDEN, NOT_ACTIVE), nonces)
          else
            var vehicle := found.value;
            match crypto.recover(nonce, signature)
            case Err(m) => (Fail(SERVER_ERROR, m.GetOr(INTERNAL_ERROR)), nonces)
            case Ok(recovered) =>
              match crypto.canon(recovered)
              case Err(m) => (Fail(SERVER_ERROR, m.GetOr(INTERNAL_ERROR)), nonces)
              case Ok(signer) =>
                match crypto.canon(vehicle.vehicleAddress)
                case Err(m) => (Fail(SERVER_ERROR, m.GetOr(INTERNAL_ERROR)), nonces)
                case Ok(registered) =>
                  var consumed := nonces - {id};
                  if signer != registered then (Reply(UNAUTHORIZED, AuthRejected(SIGNATURE_MISMATCH)), consumed)
                  else (Reply(OK, AuthGranted(id, vehicle.vehicleAddress)), consumed)
  }

  /** A (vehicle id, nonce, signature) triplet gets at most one verdict:
      replaying it after an attempt that reached a verdict, whatever the
      ledger and signature library answer the second time, is rejected as
      an invalid nonce. */
  lemma ReplayRejected(nonces: NonceStore, req: AuthRequest, record1: Ledger<Option<VehicleRecord>>, record2: Ledger<Option<VehicleRecord>>, crypto1: Crypto, crypto2: Crypto)
    requires ReachesVerdict(nonces, req, record1, crypto1)
    ensures var first := Authenticate(nonces, req, record1, crypto1);
      Authenticate(first.1, req, record2, crypto2) == (Fail(UNAUTHORIZED, INVALID_NONCE), first.1)
  {
    var first := Authenticate(nonces, req, record1, crypto1);
    assert req.vehicleId.value !in first.1;
  }

  /** Requesting a second nonce invalidates the first: authenticating with
      the first then fails and leaves the second outstanding. */
  lemma ReissueInvalidatesPrior(nonces: NonceStore, vehicleId: string, n1: string, n2: string, signature: string, record: Ledger<Option<VehicleRecord>>, crypto: Crypto)
    requires vehicleId != "" && n1 != "" && signature != ""
    requires n1 != n2
    ensures var s1 := IssueNonce(nonces, Some(vehicleId), Replied(true), n1).1;
      var s2 := IssueNonce(s1, Some(vehicleId), Replied(true), n2).1;
      Authenticate(s2, AuthRequest(Some(vehicleId), Some(n1), Some(signature)), record, crypto)
        == (Fail(UNAUTHORIZED, INVALID_NONCE), s2)
  {
    var s1 := IssueNonce(nonces, Some(vehicleId), Replied(true), n1).1;
    var s2 := IssueNonce(s1, Some(vehicleId), Replied(true), n2).1;
    assert s2[vehicleId] == n2;
  }

  /** An attempt that stops before the signature comparison (a missing or
      inactive record, a throwing ledger read, or a throwing signature
      library) is refused and keeps the nonce: a later attempt with the same
      nonce, an active record and a good signature succeeds. */
  lemma FailedAttemptKeepsNonce(nonces: NonceStore, req: AuthRequest, record1: Ledger<Option<VehicleRecord>>, record2: Ledger<Option<VehicleRecord>>, crypto1: Crypto, crypto2: Crypto)
    requires Complete(req) && NonceMatches(nonces, req.vehicleId.value, req.nonce.value)
    requires !ReachesVerdict(nonces, req, record1, crypto1)
    requires ActiveRecord(record2) && SignedBy(crypto2, req.nonce.value, req.signature.value, record2.value.value.vehicleAddress)
    ensures var first := Authenticate(nonces, req, record1, crypto1);
      first.0.status != OK && Authenticate(first.1, req, record2, crypto2).0.status == OK
  {
  }

  /** A vehicle whose ledger record is revoked (inactive) cannot authenticate,
      whatever it signs. */
  lemma RevokedCannotAuthenticate(nonces: NonceStore, req: AuthRequest, v: VehicleRecord, crypto: Crypto)
    requires !v.active
    ensures Authenticate(nonces, req, Replied(Some(v)), crypto).0.status != OK
  {
  }
}

=== FILE: backend.dfy ===
/** The whole backend as one state machine: every route and every timer or
    worker event is an atomic transition over the in-memory stores, with the
    ledger's and libraries' answers carried by the event. */
module Backend {
  import opened Base
  import opened Entities
  import opened Http
  import opened Oracles
  import Telemetry
  import Workers
  import Registry
  import Authenticator

  datatype State = State(
    nonces: Authenticator.NonceStore,
    registry: Registry.Bookkeeping,
    workers: Workers.Tasks,
    telemetry: Telemetry.Store,
    submitted: seq<LedgerWrite>)   // the ledger writes sent so far, oldest first

  predicate Valid(st: State) {
    Registry.Valid(st.registry) && Telemetry.Valid(st.telemetry)
  }

  /** The stores at process start: all empty. */
  function Initial(): (st: State)
    ensures Valid(st)
  {
    State(map[], Registry.Initial(), Workers.Initial(), Telemetry.Initial(), [])
  }

  /** One request or internal event, with the collaborators' answers it needs. */
  datatype Event =
    | RegisterReq(req: Registry.RegisterRequest, uuid: string, wallet: Registry.Wallet, registerReply: Ledger<string>)
    | RevokeReq(revokeId: Option<string>, revokeReply: Ledger<string>)
    | RequestNonce(nonceId: Option<string>, active: Ledger<bool>, nonce: string)
    | LookupReq(mobile: string)
    | ListRegisteredReq
    | StartClientReq(clientId: string)
    | StartChainReq(chainId: string, privateKey: Option<string>, spawn: Workers.Spawn)
    | ChainExited(key: string)
    | AuthenticateReq(auth: Authenticator.AuthRequest, record: Ledger<Option<VehicleRecord>>)
    | StatusReq(statusId: string, statusRecord: Ledger<Option<VehicleRecord>>)
    | TimerFired(timerId: string, draws: Workers.TickDraws, firedAt: nat)
    | GpsUpdate(update: Telemetry.Update, updatedAt: nat)
    | GpsLatest(latestId: string)
    | GpsAll
    | ReportAccidentReq(accident: Telemetry.Accident, reportedAt: nat)
    | ListAccidents

  ghost predicate IsPrefix<T>(a: seq<T>, b: seq<T>) {
    |a| <= |b| && a == b[..|a|]
  }

  /** What no transition ever undoes: the accident log, the registered list,
      the ledger-write log and the telemetry enumeration order only grow at
      the end; a vehicle with a telemetry sample or a mobile-index entry
      keeps one; and a simulated timer, once started, keeps running (there
      is no stop operation). */
  ghost predicate Grows(st: State, st': State) {
    && IsPrefix(st.telemetry.accidentHistory, st'.telemetry.accidentHistory)
    && IsPrefix(st.registry.vehicles, st'.registry.vehicles)
    && IsPrefix(st.submitted, st'.submitted)
    && IsPrefix(st.telemetry.gpsData.order, st'.telemetry.gpsData.order)
    && st.telemetry.gpsData.entries.Keys <= st'.telemetry.gpsData.entries.Keys
    && st.registry.mobileToId.Keys <= st'.registry.mobileToId.Keys
    && st.workers.timers.Keys <= st'.workers.timers.Keys
  }

  lemma GrowsTransitive(a: State, b: State, c: State)
    requires Grows(a, b) && Grows(b, c)
    ensures Grows(a, c)
  {
    assert b.telemetry.accidentHistory[..|a.telemetry.accidentHistory|] == c.telemetry.accidentHistory[..|a.telemetry.accidentHistory|];
    assert b.registry.vehicles[..|a.registry.vehicles|] == c.registry.vehicles[..|a.registry.vehicles|];
    assert b.submitted[..|a.submitted|] == c.submitted[..|a.submitted|];
    assert b.telemetry.gpsData.order[..|a.telemetry.gpsData.order|] == c.telemetry.gpsData.order[..|a.telemetry.gpsData.order|];
  }

  function Record(log: seq<LedgerWrite>, w: Option<LedgerWrite>): (log': seq<LedgerWrite>)
    ensures IsPrefix(log, log')
    ensures |log'| <= |log| + 1
  {
    if w.Some? then log + [w.value] else log
  }

  /** Handle one event. Internal events (timer firings, worker exits) have no response. */
  function Step(crypto: Crypto, st: State, ev: Event): (r: (Option<Response>, State))
    requires Valid(st)
    ensures Valid(r.1)
    ensures Grows(st, r.1)
    ensures ev.AuthenticateReq? || ev.RequestNonce? || r.1.nonces == st.nonces
    ensures (ev.ReportAccidentReq? && |r.1.telemetry.accidentHistory| == |st.telemetry.accidentHistory| + 1)
      || (!ev.ReportAccidentReq? && r.1.telemetry.accidentHistory == st.telemetry.accidentHistory)
    // the read-only routes change nothing
    ensures ev.LookupReq? || ev.ListRegisteredReq? || ev.GpsLatest? || ev.GpsAll? || ev.ListAccidents? ==> r.1 == st
    // each store is touched only by its own routes
    ensures !ev.RegisterReq? ==> r.1.registry == st.registry
    ensures !(ev.GpsUpdate? || ev.TimerFired? || ev.ReportAccidentReq?) ==> r.1.telemetry == st.telemetry
    ensures !(ev.StartChainReq? || ev.ChainExited?) ==> r.1.workers.chainClients == st.workers.chainClients
  {
    match ev
    case RegisterReq(req, uuid, wallet, reply) =>
      var (resp, reg, write) := Registry.Register(st.registry, req, uuid, wallet, crypto.isAddress, reply);
      (Some(resp), st.(registry := reg, submitted := Record(st.submitted, write)))
    case RevokeReq(id, reply) =>
      var (resp, write) := Registry.Revoke(id, reply);
      (Some(resp), st.(submitted := Record(st.submitted, write)))
    case RequestNonce(id, active, nonce) =>
      var (resp, nonces) := Authenticator.IssueNonce(st.nonces, id, active, nonce);
      (Some(resp), st.(nonces := nonces))
    case LookupReq(mobile) =>
      (Some(Registry.Lookup(st.registry, mobile)), st)
    case ListRegisteredReq =>
      (Some(Registry.ListRegistered(st.registry)), st)
    case StartClientReq(id) =>
      var (resp, w) := Workers.StartClient(st.workers, id);
      (Some(resp), st.(workers := w))
    case StartChainReq(id, privateKey, spawn) =>
      var (resp, w) := Workers.StartChain(st.workers, id, privateKey, spawn);
      (Some(resp), st.(workers := w))
    case ChainExited(key) =>
      (None, st.(workers := Workers.ChainExit(st.workers, key)))
    case AuthenticateReq(req, record) =>
      var (resp, nonces) := Authenticator.Authenticate(st.nonces, req, record, crypto);
      (Some(resp), st.(nonces := nonces))
    case StatusReq(id, record) =>
      var (resp, w) := Registry.Status(st.workers, id, record);
      (Some(resp), st.(workers := w))
    case TimerFired(id, draws, now) =>
      // only a running timer fires
      if id !in st.workers.timers then (None, st)
      else
        var (w, t) := Workers.Tick(st.workers, st.telemetry, id, draws, now);
        (None, st.(workers := w, telemetry := t))
    case GpsUpdate(u, now) =>
      var (resp, t) := Telemetry.PostUpdate(st.telemetry, u, now);
      (Some(resp), st.(telemetry := t))
    case GpsLatest(id) =>
      (Some(Telemetry.Latest(st.telemetry, id)), st)
    case GpsAll =>
      (Some(Reply(OK, SampleList(Telemetry.All(st.telemetry)))), st)
    case ReportAccidentReq(a, now) =>
      var (resp, t) := Telemetry.ReportAccident(st.telemetry, a, now);
      (Some(resp), st.(telemetry := t))
    case ListAccidents =>
      (Some(Telemetry.Accidents(st.telemetry)), st)
  }

  /** Handle a sequence of events in order; returns the responses and the final state. */
  function Run(crypto: Crypto, st: State, evs: seq<Event>): (r: (seq<Option<Response>>, State))
    requires Valid(st)
    ensures |r.0| == |evs|
    ensures Valid(r.1)
    ensures Grows(st, r.1)
    decreases |evs|
  {
    if evs == [] then ([], st)
    else
      var (resp, mid) := Step(crypto, st, evs[0]);
      var (rest, last) := Run(crypto, mid, evs[1..]);
      GrowsTransitive(st, mid, last);
      ([resp] + rest, last)
  }

  /** The number of accident reports among the events. */
  function Reports(evs: seq<Event>): nat {
    if evs == [] then 0 else (if evs[0].ReportAccidentReq? then 1 else 0) + Reports(evs[1..])
  }

  /** The accident log grows by exactly one record per accident report and by
      nothing else. */
  lemma {:induction false} RunAccidentCount(crypto: Crypto, st: State, evs: seq<Event>)
    requires Valid(st)
    ensures |Run(crypto, st, evs).1.telemetry.accidentHistory| == |st.telemetry.accidentHistory| + Reports(evs)
    decreases |evs|
  {
    if evs != [] {
      var mid := Step(crypto, st, evs[0]).1;
      RunAccidentCount(crypto, mid, evs[1..]);
    }
  }

  /** An accepted telemetry update stores a sample for its vehicle. */
  lemma UpdateStores(crypto: Crypto, st: State, u: Telemetry.Update, now: nat)
    requires Valid(st)
    requires Js.Present(u.vehicleId) && Js.Truthy(u.lat) && Js.Truthy(u.long)
    ensures u.vehicleId.value in Step(crypto, st, GpsUpdate(u, now)).1.telemetry.gpsData.entries
  {
    assert Step(crypto, st, GpsUpdate(u, now)).1.telemetry == Telemetry.PostUpdate(st.telemetry, u, now).1;
  }

  /** A vehicle whose telemetry update was accepted stays listed: after any
      later run of events, `/all` holds a sample for it. */
  lemma UpdateStaysListed(crypto: Crypto, st: State, u: Telemetry.Update, now: nat, evs: seq<Event>)
    requires Valid(st)
    requires Js.Present(u.vehicleId) && Js.Truthy(u.lat) && Js.Truthy(u.long)
    ensures var last := Run(crypto, Step(crypto, st, GpsUpdate(u, now)).1, evs).1;
      exists i :: 0 <= i < |Telemetry.All(last.telemetry)| && Telemetry.All(last.telemetry)[i].vehicleId == u.vehicleId.value
  {
    var mid := Step(crypto, st, GpsUpdate(u, now)).1;
    UpdateStores(crypto, st, u, now);
    var last := Run(crypto, mid, evs).1;
    assert Grows(mid, last);
    Telemetry.StoredIsListed(last.telemetry, u.vehicleId.value);
    var samples := Telemetry.All(last.telemetry);
    var i :| 0 <= i < |samples| && samples[i].vehicleId == u.vehicleId.value;
    assert last == Run(crypto, Step(crypto, st, GpsUpdate(u, now)).1, evs).1;
    assert 0 <= i < |Telemetry.All(last.telemetry)| && Telemetry.All(last.telemetry)[i].vehicleId == u.vehicleId.value;
  }

  /** `nonce` is not the outstanding nonce of `vehicleId`. */
  predicate Spent(st: State, vehicleId: string, nonce: string) {
    vehicleId !in st.nonces || st.nonces[vehicleId] != nonce
  }

  /** The event issues `nonce` to `vehicleId` again (a repeated random value). */
  predicate Reissues(ev: Event, vehicleId: string, nonce: string) {
    ev.RequestNonce? && ev.nonceId == Some(vehicleId) && ev.nonce == nonce
  }

  /** An attempt to authenticate `vehicleId` with `nonce`. */
  predicate Presents(ev: Event, vehicleId: string, nonce: string) {
    ev.AuthenticateReq? && ev.auth.vehicleId == Some(vehicleId) && ev.auth.nonce == Some(nonce)
  }

  /** Unless the same nonce is issued again, a step keeps a spent nonce
      spent, and an attempt presenting it is refused. */
  lemma StepKeepsSpent(crypto: Crypto, st: State, ev: Event, vehicleId: string, nonce: string)
    requires Valid(st)
    requires vehicleId != "" && nonce != ""
    requires Spent(st, vehicleId, nonce)
    requires !Reissues(ev, vehicleId, nonce)
    ensures Spent(Step(crypto, st, ev).1, vehicleId, nonce)
    ensures Presents(ev, vehicleId, nonce) ==> Step(crypto, st, ev).0.Some? && Step(crypto, st, ev).0.value.status != OK
    ensures Presents(ev, vehicleId, nonce) && Js.Present(ev.auth.signature) ==>
      Step(crypto, st, ev).0 == Some(Fail(UNAUTHORIZED, Authenticator.INVALID_NONCE))
  {
    if ev.RequestNonce? && ev.nonceId == Some(vehicleId) {
      assert ev.nonce != nonce;
    }
  }

  /** A nonce that is not outstanding never authenticates again: over any
      run in which it is not re-issued, every attempt presenting it is
      refused, as an invalid nonce whenever the request is complete. */
  lemma {:induction false} SpentNonceNeverAccepted(crypto: Crypto, st: State, evs: seq<Event>, vehicleId: string, nonce: string)
    requires Valid(st)
    requires vehicleId != "" && nonce != ""
    requires Spent(st, vehicleId, nonce)
    requires forall k :: 0 <= k < |evs| ==> !Reissues(evs[k], vehicleId, nonce)
    ensures var out := Run(crypto, st, evs).0;
      forall k :: 0 <= k < |evs| && Presents(evs[k], vehicleId, nonce) ==>
        && out[k].Some? && out[k].value.status != OK
        && (Js.Present(evs[k].auth.signature) ==> out[k] == Some(Fail(UNAUTHORIZED, Authenticator.INVALID_NONCE)))
    decreases |evs|
  {
    if evs != [] {
      var (first, mid) := Step(crypto, st, evs[0]);
      StepKeepsSpent(crypto, st, evs[0], vehicleId, nonce);
      SpentNonceNeverAccepted(crypto, mid, evs[1..], vehicleId, nonce);
      var out := Run(crypto, st, evs).0;
      var rest := Run(crypto, mid, evs[1..]).0;
      assert out == [first] + rest;
      forall k | 1 <= k < |evs|
        ensures out[k] == rest[k - 1] && evs[k] == evs[1..][k - 1]
      {
      }
    }
  }

  /** An attempt that reaches a verdict spends its nonce. */
  lemma VerdictSpends(crypto: Crypto, st: State, req: Authenticator.AuthRequest, record: Ledger<Option<VehicleRecord>>)
    requires Valid(st)
    requires Authenticator.ReachesVerdict(st.nonces, req, record, crypto)
    ensures Spent(Step(crypto, st, AuthenticateReq(req, record)).1, req.vehicleId.value, req.nonce.value)
  {
    assert Step(crypto, st, AuthenticateReq(req, record)).1.nonces == Authenticator.Authenticate(st.nonces, req, record, crypto).1;
  }

  /** A (vehicle id, nonce, signature) triplet never gets a second verdict:
      after an attempt reaches one, no later attempt with that nonce in any
      run succeeds, unless the same nonce is issued again. */
  lemma ReplayNeverSucceeds(crypto: Crypto, st: State, req: Authenticator.AuthRequest, record: Ledger<Option<VehicleRecord>>, evs: seq<Event>)
    requires Valid(st)
    requires Authenticator.ReachesVerdict(st.nonces, req, record, crypto)
    requires forall k :: 0 <= k < |evs| ==> !Reissues(evs[k], req.vehicleId.value, req.nonce.value)
    ensures var after := Step(crypto, st, AuthenticateReq(req, record)).1;
      var out := Run(crypto, after, evs).0;
      forall k :: 0 <= k < |evs| && Presents(evs[k], req.vehicleId.value, req.nonce.value) ==>
        out[k].Some? && out[k].value.status != OK
  {
    var after := Step(crypto, st, AuthenticateReq(req, record)).1;
    VerdictSpends(crypto, st, req, record);
    SpentNonceNeverAccepted(crypto, after, evs, req.vehicleId.value, req.nonce.value);
  }

  /** The end-to-end exchange: a nonce is issued to an active vehicle, a
      signature over it by the registered key authenticates, and the
      immediate replay of the same triplet is refused as an invalid nonce. */
  lemma ChallengeResponseScenario(crypto: Crypto, st: State, vehicleId: string, nonce: string, signature: string, v: VehicleRecord)
    requires Valid(st)
    requires vehicleId != "" && nonce != "" && signature != ""
    requires v.active
    requires Authenticator.SignedBy(crypto, nonce, signature, v.vehicleAddress)
    ensures var req := Authenticator.AuthRequest(Some(vehicleId), Some(nonce), Some(signature));
      var evs := [RequestNonce(Some(vehicleId), Replied(true), nonce), AuthenticateReq(req, Replied(Some(v))), AuthenticateReq(req, Replied(Some(v)))];
      Run(crypto, st, evs).0 == [
        Some(Reply(OK, NonceIssued(nonce))),
        Some(Reply(OK, AuthGranted(vehicleId, v.vehicleAddress))),
        Some(Fail(UNAUTHORIZED, Authenticator.INVALID_NONCE))]
  {
    var req := Authenticator.AuthRequest(Some(vehicleId), Some(nonce), Some(signature));
    var evs := [RequestNonce(Some(vehicleId), Replied(true), nonce), AuthenticateReq(req, Replied(Some(v))), AuthenticateReq(req, Replied(Some(v)))];
    var (r1, s1) := Step(crypto, st, evs[0]);
    var (r2, s2) := Step(crypto, s1, evs[1]);
    var (r3, s3) := Step(crypto, s2, evs[2]);
    assert r1 == Some(Reply(OK, NonceIssued(nonce)));
    assert Authenticator.ReachesVerdict(s1.nonces, req, Replied(Some(v)), crypto);
    assert r2 == Some(Reply(OK, AuthGranted(vehicleId, v.vehicleAddress)));
    Authenticator.ReplayRejected(s1.nonces, req, Replied(Some(v)), Replied(Some(v)), crypto, crypto);
    assert r3 == Some(Fail(UNAUTHORIZED, Authenticator.INVALID_NONCE));
    assert evs[1..][1..][1..] == [];
    assert Run(crypto, s2, evs[2..]).0 == [r3];
    assert Run(crypto, s1, evs[1..]).0 == [r2, r3];
  }
}

=== FILE: base.dfy ===
/** Option and Result, the two failure-carrying shapes the handlers use. */
module Base {

  /** A value that may be absent: an optional request field, a map lookup. */
  datatype Option<+T> = None | Some(value: T) {

    /** The value, or `default` when absent (the `??` operator). */
    function GetOr(default: T): T {
      match this
      case Some(v) => v
      case None => default
    }
  }

  /** The outcome of a library call that may throw: the value, or the thrown
      error's message, which may be missing. */
  datatype Result<+T> = Ok(value: T) | Err(message: Option<string>)
}

/** The slice of JavaScript value semantics the request handlers depend on. */
module Js {
  import opened Base

  /** A JSON value as it arrives in a request body. Objects and arrays are
      not inspected by any handler, so they share one constructor. */
  datatype Value = Null | Bool(b: bool) | Num(n: real) | Str(s: string) | Structured

  /** JavaScript truthiness of a body field; an absent field is `undefined`. */
  predicate Truthy(v: Option<Value>) {
    match v
    case None => false
    case Some(Null) => false
    case Some(Bool(b)) => b
    case Some(Num(n)) => n != 0.0
    case Some(Str(s)) => s != ""
    case Some(Structured) => true
  }

  /** Truthiness of a field typed as an optional string: present and non-empty. */
  predicate Present(s: Option<string>) {
    s.Some? && s.value != ""
  }

  /** The `a || b` operator on a body field. */
  function OrElse(v: Option<Value>, fallback: Value): (r: Value)
    ensures Truthy(v) ==> Some(r) == v
    ensures !Truthy(v) ==> r == fallback
  {
    if Truthy(v) then v.value else fallback
  }

  /** `Date.now()` as a JSON number. */
  function Millis(now: nat): (r: Value)
    ensures Truthy(Some(r)) <==> now != 0
  {
    Num(now as real)
  }
}

=== FILE: entities.dfy ===
/** The records the backend stores and returns. */
module Entities {
  import opened Base
  import opened Js

  /** One entry of the in-memory list of vehicles registered through this process. */
  datatype Registration = Registration(vehicleId: string, vehicleAddress: string)

  /** A vehicle's identity record as the ledger returns it. */
  datatype VehicleRecord = VehicleRecord(vehicleAddress: string, active: bool, registeredAt: nat, revokedAt: nat)

  /** The latest telemetry sample of one vehicle; `speed` may be absent in a
      posted update. */
  datatype Sample = Sample(vehicleId: string, lat: Value, long: Value, speed: Option<Value>, timestamp: Value)

  /** One accident report, stored exactly as posted apart from the timestamp default. */
  datatype AccidentRecord = AccidentRecord(
    vehicleId: Option<Value>,
    location: Option<Value>,
    speed: Option<Value>,
    details: Option<Value>,
    timestamp: Value)
}

=== FILE: http.dfy ===
/** The observable answer of a request: a status code and a JSON body. */
module Http {
  import opened Base
  import opened Entities

  const OK: nat := 200
  const CREATED: nat := 201
  const BAD_REQUEST: nat := 400
  const UNAUTHORIZED: nat := 401
  const FORBIDDEN: nat := 403
  const NOT_FOUND: nat := 404
  const SERVER_ERROR: nat := 500

  /** What a start request reports about a per-vehicle task or worker. */
  datatype RunStatus = Started | AlreadyRunning

  datatype Payload =
    | Registered(txHash: Option<string>, vehicleId: string, vehicleAddress: string, privateKey: Option<string>)
    | Revoked(revokeTx: string)
    | NonceIssued(nonce: string)
    | LookedUp(foundId: string)
    | VehicleList(vehicles: seq<Registration>)
    | ClientState(status: RunStatus, clientId: string, chainMode: bool)
    | AuthRejected(reason: string)
    | AuthGranted(grantedId: string, grantedAddress: string)
    | NotRegistered
    | VehicleStatus(active: bool, statusAddress: string, registeredAt: nat, revokedAt: nat)
    | GpsUpdated
    | OneSample(sample: Sample)
    | SampleList(samples: seq<Sample>)
    | AccidentRecorded(record: AccidentRecord)
    | AccidentList(records: seq<AccidentRecord>)

  /** `{ error: message }` or a handler-specific JSON object. */
  datatype Body = Error(message: string) | Json(payload: Payload)

  datatype Response = Response(status: nat, body: Body)

  function Fail(status: nat, message: string): Response {
    Response(status, Error(message))
  }

  function Reply(status: nat, payload: Payload): Response {
    Response(status, Json(payload))
  }

  /** The fallback message of every `catch` block. */
  const INTERNAL_ERROR := "Internal error"

  /** The refusal of a request without a vehicle id. */
  const VEHICLE_ID_REQUIRED := "vehicleId is required"
}

=== FILE: insertion_map.dfy ===
/** A JavaScript `Map` keyed by strings: a finite map that also remembers the order in
    which its keys were first inserted. `set` on an existing key replaces
    the value but keeps the key's position; `values()` enumerates in that
    order. */
module InsertionMap {

  datatype OrderedMap<V> = OrderedMap(order: seq<string>, entries: map<string, V>)

  /** Each key appears once in the order, and the order lists exactly the keys. */
  predicate Valid<V>(m: OrderedMap<V>) {
    && (forall i, j :: 0 <= i < j < |m.order| ==> m.order[i] != m.order[j])
    && (forall k :: k in m.entries ==> k in m.order)
    && (forall i :: 0 <= i < |m.order| ==> m.order[i] in m.entries)
  }

  /** `m.set(k, v)`. */
  function Set<V>(m: OrderedMap<V>, k: string, v: V): (r: OrderedMap<V>)
    requires Valid(m)
    ensures Valid(r)
    ensures r.entries == m.entries[k := v]
    ensures k in m.entries ==> r.order == m.order
    ensures k !in m.entries ==> r.order == m.order + [k]
  {
    if k in m.entries then OrderedMap(m.order, m.entries[k := v])
    else OrderedMap(m.order + [k], m.entries[k := v])
  }

  /** `Array.from(m.values())`. */
  function Values<V>(m: OrderedMap<V>): (vs: seq<V>)
    requires Valid(m)
    ensures |vs| == |m.order|
    ensures forall i :: 0 <= i < |vs| ==> m.order[i] in m.entries && vs[i] == m.entries[m.order[i]]
  {
    ValuesAlong(m.order, m.entries)
  }

  function ValuesAlong<V>(order: seq<string>, entries: map<string, V>): (vs: seq<V>)
    requires forall i :: 0 <= i < |order| ==> order[i] in entries
    ensures |vs| == |order|
    ensures forall i :: 0 <= i < |vs| ==> vs[i] == entries[order[i]]
  {
    if order == [] then []
    else [entries[order[0]]] + ValuesAlong(order[1..], entries)
  }
}

=== FILE: mobile.dfy ===
/** Mobile-number normalisation: `m.replace(/\D/g, "")`, which keeps the
    ASCII digits of a string in order and drops every other character. */
module Mobile {

  /** `\d` without the Unicode flag matches exactly the ASCII digits. */
  predicate IsDigit(c: char) {
    '0' <= c <= '9'
  }

  predicate AllDigits(s: string) {
    forall i :: 0 <= i < |s| ==> IsDigit(s[i])
  }

  predicate NoDigits(s: string) {
    forall i :: 0 <= i < |s| ==> !IsDigit(s[i])
  }

  /** The normalised form used as the key of the mobile-number index. */
  function Normalize(m: string): (r: string)
    ensures AllDigits(r)
    ensures |r| <= |m|
  {
    if m == [] then []
    else (if IsDigit(m[0]) then [m[0]] else []) + Normalize(m[1..])
  }

  /** Normalising distributes over concatenation. */
  lemma {:induction false} NormalizeAppend(a: string, b: string)
    ensures Normalize(a + b) == Normalize(a) + Normalize(b)
  {
    if a == [] {
      assert a + b == b;
    } else {
      assert (a + b)[0] == a[0];
      assert (a + b)[1..] == a[1..] + b;
      NormalizeAppend(a[1..], b);
    }
  }

  /** A string of digits is already normal. */
  lemma {:induction false} NormalizeDigits(s: string)
    requires AllDigits(s)
    ensures Normalize(s) == s
  {
    if s != [] {
      NormalizeDigits(s[1..]);
    }
  }

  /** A string without digits normalises to the empty key. */
  lemma {:induction false} NormalizeNoDigits(s: string)
    requires NoDigits(s)
    ensures Normalize(s) == ""
  {
    if s != [] {
      NormalizeNoDigits(s[1..]);
    }
  }

  /** Normalisation is idempotent. */
  lemma NormalizeIdempotent(m: string)
    ensures Normalize(Normalize(m)) == Normalize(m)
  {
    NormalizeDigits(Normalize(m));
  }

  /** One way of writing a number: the digits `d` with the separator
      `seps[i]` (spaces, dashes, brackets, a leading '+', ...) in front of
      digit `i` and `seps[|d|]` after the last one. */
  function Format(d: string, seps: seq<string>): string
    requires |seps| == |d| + 1
  {
    if d == [] then seps[0]
    else seps[0] + [d[0]] + Format(d[1..], seps[1..])
  }

  /** Every formatting of a digit string normalises back to that digit string. */
  lemma {:induction false} NormalizeFormat(d: string, seps: seq<string>)
    requires |seps| == |d| + 1
    requires AllDigits(d)
    requires forall i :: 0 <= i < |seps| ==> NoDigits(seps[i])
    ensures Normalize(Format(d, seps)) == d
  {
    NormalizeNoDigits(seps[0]);
    if d == [] {
    } else {
      var rest := Format(d[1..], seps[1..]);
      NormalizeFormat(d[1..], seps[1..]);
      NormalizeAppend(seps[0] + [d[0]], rest);
      NormalizeAppend(seps[0], [d[0]]);
      assert Normalize([d[0]]) == [d[0]];
    }
  }
}

=== FILE: oracles.dfy ===
/** The answers of the collaborators the handlers cannot see: the ledger
    client and the signature library. They are inputs of each transition. */
module Oracles {
  import opened Base

  /** A rejected ledger promise: the error's `code` and `message`, either of
      which may be missing. */
  datatype LedgerError = LedgerError(code: Option<string>, message: Option<string>)

  /** The reply of one awaited ledger call. */
  datatype Ledger<+T> = Replied(value: T) | Threw(error: LedgerError)

  /** The code ethers gives a reverted contract call. */
  const CALL_EXCEPTION := "CALL_EXCEPTION"

  /** A state-changing ledger call the backend submitted. */
  datatype LedgerWrite = RegisterVehicle(vehicleId: string, address: string) | RevokeVehicle(revokedId: string)

  /** `ethers.verifyMessage` (recover the signer of a message), `ethers.getAddress`
      (canonical checksummed form) and `ethers.isAddress`. The first two
      throw on malformed input. */
  datatype Crypto = Crypto(
    recover: (string, string) -> Result<string>,
    canon: string -> Result<string>,
    isAddress: string -> bool)

  /** `Math.random()`: a draw from [0, 1). */
  type Draw = r: real | 0.0 <= r < 1.0
}

=== FILE: registry.dfy ===
/** The registration routes: register, revoke, lookup by mobile number,
    the list of vehicles registered through this process, and status. */
module Registry {
  import opened Base
  import opened Js
  import opened Entities
  import opened Http
  import opened Oracles
  import Mobile
  import Workers

  /** The process-local registration bookkeeping. */
  datatype Bookkeeping = Bookkeeping(vehicles: seq<Registration>, mobileToId: map<string, string>)

  const EITHER_REQUIRED := "Either vehicleAddress or mobileNumber is required"
  const INVALID_ADDRESS := "Invalid vehicleAddress"
  const NO_VEHICLE_FOR_MOBILE := "No vehicle found for this mobile number"
  const ID_PREFIX := "V2X-"

  function Initial(): (reg: Bookkeeping)
    ensures reg.vehicles == [] && reg.mobileToId == map[]
  {
    Bookkeeping([], map[])
  }

  /** No two entries of the list share a vehicle id. */
  predicate Distinct(vs: seq<Registration>) {
    forall i, j :: 0 <= i < j < |vs| ==> vs[i].vehicleId != vs[j].vehicleId
  }

  predicate Listed(vs: seq<Registration>, vehicleId: string) {
    exists i :: 0 <= i < |vs| && vs[i].vehicleId == vehicleId
  }

  /** The bookkeeping invariant: ids are unique and non-empty, and the mobile
      index only points at non-empty ids. */
  predicate Valid(reg: Bookkeeping) {
    && Distinct(reg.vehicles)
    && (forall i :: 0 <= i < |reg.vehicles| ==> reg.vehicles[i].vehicleId != "")
    && (forall k :: k in reg.mobileToId ==> reg.mobileToId[k] != "")
  }

  /** `registeredVehicles.find(v => v.vehicleId === vehicleId)`. */
  function Find(vs: seq<Registration>, vehicleId: string): (r: Option<Registration>)
    ensures r.Some? <==> Listed(vs, vehicleId)
    ensures r.Some? ==> r.value in vs && r.value.vehicleId == vehicleId
  {
    if vs == [] then None
    else if vs[0].vehicleId == vehicleId then Some(vs[0])
    else
      var r := Find(vs[1..], vehicleId);
      assert forall i :: 1 <= i < |vs| ==> vs[i] == vs[1..][i - 1];
      r
  }

  /** The text before the first '-' (`split('-')[0]`). */
  function FirstSegment(u: string): (head: string)
    ensures |head| <= |u| && head == u[..|head|]
    ensures forall i :: 0 <= i < |head| ==> head[i] != '-'
    ensures |head| < |u| ==> u[|head|] == '-'
  {
    if u == [] || u[0] == '-' then [] else [u[0]] + FirstSegment(u[1..])
  }

  function UpperChar(c: char): char {
    if 'a' <= c <= 'z' then (c as int - 32) as char else c
  }

  /** `toUpperCase()` on the ASCII letters. */
  function Upper(s: string): (r: string)
    ensures |r| == |s|
    ensures forall i :: 0 <= i < |s| ==> r[i] == UpperChar(s[i])
  {
    if s == [] then [] else [UpperChar(s[0])] + Upper(s[1..])
  }

  /** The id given to a vehicle registered without one, from a random UUID. */
  function GeneratedId(uuid: string): (id: string)
    ensures |id| >= |ID_PREFIX| && id[..|ID_PREFIX|] == ID_PREFIX
    ensures forall i :: |ID_PREFIX| <= i < |id| ==> id[i] != '-' && !('a' <= id[i] <= 'z')
    // the suffix is the UUID up to its first '-', upper-cased character by character
    ensures |id| - |ID_PREFIX| <= |uuid|
    ensures forall i :: 0 <= i < |id| - |ID_PREFIX| ==> uuid[i] != '-' && id[|ID_PREFIX| + i] == UpperChar(uuid[i])
    ensures |id| - |ID_PREFIX| < |uuid| ==> uuid[|id| - |ID_PREFIX|] == '-'
  {
    ID_PREFIX + Upper(FirstSegment(uuid))
  }

  /** A freshly generated wallet: `ethers.Wallet.createRandom()`. */
  datatype Wallet = Wallet(address: string, privateKey: string)

  datatype RegisterRequest = RegisterRequest(vehicleId: Option<string>, vehicleAddress: Option<string>, mobileNumber: Option<string>)

  function FinalId(req: RegisterRequest, uuid: string): (id: string)
    ensures id != ""
    ensures Present(req.vehicleId) ==> id == req.vehicleId.value
    ensures !Present(req.vehicleId) ==> id == GeneratedId(uuid)
  {
    if Present(req.vehicleId) then req.vehicleId.value else GeneratedId(uuid)
  }

  /** The address to register: the caller's, or the generated wallet's. */
  function FinalAddress(req: RegisterRequest, wallet: Wallet): string {
    if Present(req.vehicleAddress) then req.vehicleAddress.value else wallet.address
  }

  /** Validation: an address or a mobile number, and a well-formed final address. */
  predicate Acceptable(req: RegisterRequest, wallet: Wallet, isAddress: string -> bool) {
    (Present(req.vehicleAddress) || Present(req.mobileNumber)) && isAddress(FinalAddress(req, wallet))
  }

  /** Whether the ledger reply lets registration go on: a confirmed write, or
      a revert (`CALL_EXCEPTION`), read as "already registered". */
  predicate Absorbed(reply: Ledger<string>) {
    reply.Replied? || reply.error.code == Some(CALL_EXCEPTION)
  }

  /** POST /vehicles/register. Returns the response, the new bookkeeping,
      and the ledger write submitted, if any. */
  function Register(reg: Bookkeeping, req: RegisterRequest, uuid: string, wallet: Wallet, isAddress: string -> bool, reply: Ledger<string>)
    : (r: (Response, Bookkeeping, Option<LedgerWrite>))
    requires Valid(reg)
    ensures Valid(r.1)
    // validation comes before any ledger call or state change
    ensures !Acceptable(req, wallet, isAddress) ==> r.0.status == BAD_REQUEST && r.1 == reg && r.2 == None
    ensures !Present(req.vehicleAddress) && !Present(req.mobileNumber) ==> r.0 == Fail(BAD_REQUEST, EITHER_REQUIRED)
    ensures (Present(req.vehicleAddress) || Present(req.mobileNumber)) && !isAddress(FinalAddress(req, wallet)) ==>
      r.0 == Fail(BAD_REQUEST, INVALID_ADDRESS)
    ensures Acceptable(req, wallet, isAddress) ==> r.2 == Some(RegisterVehicle(FinalId(req, uuid), FinalAddress(req, wallet)))
    // a genuine ledger failure aborts before the bookkeeping is touched
    ensures Acceptable(req, wallet, isAddress) && !Absorbed(reply) ==>
      r.0 == Fail(SERVER_ERROR, reply.error.message.GetOr(INTERNAL_ERROR)) && r.1 == reg
    ensures r.0.status == CREATED <==> Acceptable(req, wallet, isAddress) && Absorbed(reply)
    ensures r.0.status == CREATED ==> r.0 == Reply(CREATED, Registered(
      if reply.Replied? then Some(reply.value) else None,
      FinalId(req, uuid), FinalAddress(req, wallet),
      if Present(req.vehicleAddress) then None else Some(wallet.privateKey)))
    // the list only grows, by the new id at the end, never by a repeated one
    ensures r.1.vehicles == reg.vehicles
      || (r.0.status == CREATED && !Listed(reg.vehicles, FinalId(req, uuid))
          && r.1.vehicles == reg.vehicles + [Registration(FinalId(req, uuid), FinalAddress(req, wallet))])
    ensures r.0.status == CREATED ==> Listed(r.1.vehicles, FinalId(req, uuid))
    // the mobile index changes only for the normalised mobile number of a successful registration
    ensures r.0.status == CREATED && Present(req.mobileNumber) ==>
      r.1.mobileToId == reg.mobileToId[Mobile.Normalize(req.mobileNumber.value) := FinalId(req, uuid)]
    ensures !(r.0.status == CREATED && Present(req.mobileNumber)) ==> r.1.mobileToId == reg.mobileToId
  {
    var id := FinalId(req, uuid);
    if !Present(req.vehicleAddress) && !Present(req.mobileNumber) then
      (Fail(BAD_REQUEST, EITHER_REQUIRED), reg, None)
    else
      var address := FinalAddress(req, wallet);
      var privateKey := if Present(req.vehicleAddress) then None else Some(wallet.privateKey);
      if !isAddress(address) then (Fail(BAD_REQUEST, INVALID_ADDRESS), reg, None)
      else
        var write := Some(RegisterVehicle(id, address));
        if !Absorbed(reply) then (Fail(SERVER_ERROR, reply.error.message.GetOr(INTERNAL_ERROR)), reg, write)
        else
          var txHash := if reply.Replied? then Some(reply.value) else None;
          var vehicles := if Find(reg.vehicles, id).Some? then reg.vehicles
                          else reg.vehicles + [Registration(id, address)];
          assert vehicles[|vehicles| - 1].vehicleId == id || Listed(reg.vehicles, id);
          var mobileToId := if Present(req.mobileNumber) then reg.mobileToId[Mobile.Normalize(req.mobileNumber.value) := id]
                            else reg.mobileToId;
          (Reply(CREATED, Registered(txHash, id, address, privateKey)), Bookkeeping(vehicles, mobileToId), write)
  }

  /** Registering an id already in the list leaves the list alone: no
      duplicate, and the first address stays. */
  lemma ReRegisterKeepsFirst(reg: Bookkeeping, req: RegisterRequest, uuid: string, wallet: Wallet, isAddress: string -> bool, reply: Ledger<string>, i: nat)
    requires Valid(reg)
    requires Present(req.vehicleId)
    requires i < |reg.vehicles| && reg.vehicles[i].vehicleId == req.vehicleId.value
    ensures var r := Register(reg, req, uuid, wallet, isAddress, reply);
      r.1.vehicles == reg.vehicles && r.1.vehicles[i].vehicleAddress == reg.vehicles[i].vehicleAddress
  {
  }

  /** Two identical successful registrations leave exactly one entry for the id. */
  lemma RegisterTwiceOneEntry(reg: Bookkeeping, req: RegisterRequest, uuid: string, wallet: Wallet, isAddress: string -> bool, reply1: Ledger<string>, reply2: Ledger<string>)
    requires Valid(reg)
    requires Present(req.vehicleId)
    requires Acceptable(req, wallet, isAddress) && Absorbed(reply1) && Absorbed(reply2)
    ensures var r1 := Register(reg, req, uuid, wallet, isAddress, reply1);
      var r2 := Register(r1.1, req, uuid, wallet, isAddress, reply2);
      && r1.0.status == CREATED && r2.0.status == CREATED
      && r2.1.vehicles == r1.1.vehicles
      && (forall i, j :: 0 <= i < j < |r2.1.vehicles| ==> r2.1.vehicles[i].vehicleId != r2.1.vehicles[j].vehicleId)
      && Listed(r2.1.vehicles, req.vehicleId.value)
  {
    var r1 := Register(reg, req, uuid, wallet, isAddress, reply1);
    var id := req.vehicleId.value;
    assert Listed(r1.1.vehicles, id);
    var i :| 0 <= i < |r1.1.vehicles| && r1.1.vehicles[i].vehicleId == id;
    ReRegisterKeepsFirst(r1.1, req, uuid, wallet, isAddress, reply2, i);
  }

  /** POST /vehicles/revoke. No local store changes; only the ledger write is submitted. */
  function Revoke(vehicleId: Option<string>, reply: Ledger<string>): (r: (Response, Option<LedgerWrite>))
    ensures !Present(vehicleId) ==> r == (Fail(BAD_REQUEST, VEHICLE_ID_REQUIRED), None)
    ensures Present(vehicleId) ==> r.1 == Some(RevokeVehicle(vehicleId.value))
    ensures Present(vehicleId) && reply.Replied? ==> r.0 == Reply(OK, Revoked(reply.value))
    ensures Present(vehicleId) && reply.Threw? ==> r.0 == Fail(SERVER_ERROR, reply.error.message.GetOr(INTERNAL_ERROR))
  {
    if !Present(vehicleId) then (Fail(BAD_REQUEST, VEHICLE_ID_REQUIRED), None)
    else
      var write := Some(RevokeVehicle(vehicleId.value));
      match reply
      case Replied(tx) => (Reply(OK, Revoked(tx)), write)
      case Threw(e) => (Fail(SERVER_ERROR, e.message.GetOr(INTERNAL_ERROR)), write)
  }

  /** GET /vehicles/lookup/:mobile. */
  function Lookup(reg: Bookkeeping, mobile: string): (r: Response)
    ensures var key := Mobile.Normalize(mobile);
      && (r.status == OK <==> key in reg.mobileToId && reg.mobileToId[key] != "")
      && (r.status == OK ==> r == Reply(OK, LookedUp(reg.mobileToId[key])))
      && (r.status != OK ==> r == Fail(NOT_FOUND, NO_VEHICLE_FOR_MOBILE))
  {
    var key := Mobile.Normalize(mobile);
    if key in reg.mobileToId && reg.mobileToId[key] != "" then Reply(OK, LookedUp(reg.mobileToId[key]))
    else Fail(NOT_FOUND, NO_VEHICLE_FOR_MOBILE)
  }

  /** A successful registration with a mobile number makes the vehicle
      findable by every formatting of that number, with any separators. */
  lemma {:induction false} LookupAnyFormatting(reg: Bookkeeping, req: RegisterRequest, uuid: string, wallet: Wallet, isAddress: string -> bool, reply: Ledger<string>, seps: seq<string>)
    requires Valid(reg)
    requires Present(req.mobileNumber) && Acceptable(req, wallet, isAddress) && Absorbed(reply)
    requires |seps| == |Mobile.Normalize(req.mobileNumber.value)| + 1
    requires forall i :: 0 <= i < |seps| ==> Mobile.NoDigits(seps[i])
    ensures var r := Register(reg, req, uuid, wallet, isAddress, reply);
      Lookup(r.1, Mobile.Format(Mobile.Normalize(req.mobileNumber.value), seps)) == Reply(OK, LookedUp(FinalId(req, uuid)))
  {
    Mobile.NormalizeFormat(Mobile.Normalize(req.mobileNumber.value), seps);
  }

  /** A mobile number without digits normalises to the empty key, so after
      such a registration every digitless lookup finds that vehicle. */
  lemma DigitlessMobilesCollide(reg: Bookkeeping, req: RegisterRequest, uuid: string, wallet: Wallet, isAddress: string -> bool, reply: Ledger<string>, other: string)
    requires Valid(reg)
    requires Present(req.mobileNumber) && Acceptable(req, wallet, isAddress) && Absorbed(reply)
    requires Mobile.NoDigits(req.mobileNumber.value) && Mobile.NoDigits(other)
    ensures Lookup(Register(reg, req, uuid, wallet, isAddress, reply).1, other) == Reply(OK, LookedUp(FinalId(req, uuid)))
  {
    Mobile.NormalizeNoDigits(req.mobileNumber.value);
    Mobile.NormalizeNoDigits(other);
  }

  /** A reverted ledger write is read as "already registered" even when the
      request names a different address: the reply reports the new address
      while the list keeps the first one. */
  lemma RevertReportsRequestedAddress(reg: Bookkeeping, req: RegisterRequest, uuid: string, wallet: Wallet, isAddress: string -> bool, message: Option<string>, i: nat)
    requires Valid(reg)
    requires Present(req.vehicleId) && Present(req.vehicleAddress) && isAddress(req.vehicleAddress.value)
    requires i < |reg.vehicles| && reg.vehicles[i].vehicleId == req.vehicleId.value
    requires reg.vehicles[i].vehicleAddress != req.vehicleAddress.value
    ensures var r := Register(reg, req, uuid, wallet, isAddress, Threw(LedgerError(Some(CALL_EXCEPTION), message)));
      && r.0 == Reply(CREATED, Registered(None, req.vehicleId.value, req.vehicleAddress.value, None))
      && r.1.vehicles[i].vehicleAddress != r.0.body.payload.vehicleAddress
  {
  }

  /** GET /vehicles/registered. */
  function ListRegistered(reg: Bookkeeping): (r: Response)
    ensures r.status == OK && r.body.Json? && r.body.payload.VehicleList?
    ensures r.body.payload.vehicles == reg.vehicles
  {
    Reply(OK, VehicleList(reg.vehicles))
  }

  /** GET /vehicles/:vehicleId/status. A found record also starts the
      vehicle's simulated telemetry timer, active or not. */
  function Status(w: Workers.Tasks, vehicleId: string, reply: Ledger<Option<VehicleRecord>>): (r: (Response, Workers.Tasks))
    ensures reply.Threw? ==> r == (Fail(SERVER_ERROR, reply.error.message.GetOr(INTERNAL_ERROR)), w)
    ensures reply == Replied(None) ==> r == (Reply(NOT_FOUND, NotRegistered), w)
    ensures reply.Replied? && reply.value.Some? ==>
      var v := reply.value.value;
      && r.0 == Reply(OK, VehicleStatus(v.active, v.vehicleAddress, v.registeredAt, v.revokedAt))
      && r.1 == Workers.StartSimulated(w, vehicleId).1
      && vehicleId in r.1.timers
  {
    match reply
    case Threw(e) => (Fail(SERVER_ERROR, e.message.GetOr(INTERNAL_ERROR)), w)
    case Replied(None) => (Reply(NOT_FOUND, NotRegistered), w)
    case Replied(Some(v)) =>
      (Reply(OK, VehicleStatus(v.active, v.vehicleAddress, v.registeredAt, v.revokedAt)), Workers.StartSimulated(w, vehicleId).1)
  }
}

=== FILE: telemetry.dfy ===
/** The telemetry routes: the latest-sample-per-vehicle store and the
    append-only accident log. */
module Telemetry {
  import opened Base
  import opened Js
  import opened Entities
  import opened Http
  import IM = InsertionMap

  datatype Store = Store(gpsData: IM.OrderedMap<Sample>, accidentHistory: seq<AccidentRecord>)

  const MISSING_GPS := "Missing GPS data"
  const NO_DATA := "No data found"

  /** The store is a well-formed map in which every sample sits under its own vehicle id. */
  predicate Valid(s: Store) {
    && IM.Valid(s.gpsData)
    && forall id :: id in s.gpsData.entries ==> s.gpsData.entries[id].vehicleId == id
  }

  function Initial(): (s: Store)
    ensures Valid(s)
    ensures s.gpsData.entries == map[] && s.accidentHistory == []
  {
    Store(IM.OrderedMap([], map[]), [])
  }

  /** `gpsData.set(sample.vehicleId, sample)`: the sample becomes the vehicle's
      latest and no other vehicle's entry moves. */
  function Put(s: Store, sample: Sample): (r: Store)
    requires Valid(s)
    ensures Valid(r)
    ensures r.gpsData.entries == s.gpsData.entries[sample.vehicleId := sample]
    // `Map.set` order: a known key keeps its place, a new key goes last
    ensures sample.vehicleId in s.gpsData.entries ==> r.gpsData.order == s.gpsData.order
    ensures sample.vehicleId !in s.gpsData.entries ==> r.gpsData.order == s.gpsData.order + [sample.vehicleId]
    ensures r.accidentHistory == s.accidentHistory
  {
    s.(gpsData := IM.Set(s.gpsData, sample.vehicleId, sample))
  }

  /** The body of a posted update. */
  datatype Update = Update(vehicleId: Option<string>, lat: Option<Value>, long: Option<Value>, speed: Option<Value>, timestamp: Option<Value>)

  /** POST /update at time `now`. */
  function PostUpdate(s: Store, u: Update, now: nat): (r: (Response, Store))
    requires Valid(s)
    ensures Valid(r.1)
    ensures r.0.status == BAD_REQUEST <==> !Present(u.vehicleId) || !Truthy(u.lat) || !Truthy(u.long)
    ensures r.0.status == BAD_REQUEST ==> r == (Fail(BAD_REQUEST, MISSING_GPS), s)
    ensures r.0.status != BAD_REQUEST ==> r.0 == Reply(OK, GpsUpdated)
    ensures r.1.accidentHistory == s.accidentHistory
    ensures r.0.status != BAD_REQUEST ==>
      && r.1.gpsData.entries.Keys == s.gpsData.entries.Keys + {u.vehicleId.value}
      && (forall id :: id in s.gpsData.entries && id != u.vehicleId.value ==> r.1.gpsData.entries[id] == s.gpsData.entries[id])
      && (u.vehicleId.value in s.gpsData.entries ==> r.1.gpsData.order == s.gpsData.order)
      && (u.vehicleId.value !in s.gpsData.entries ==> r.1.gpsData.order == s.gpsData.order + [u.vehicleId.value])
  {
    if !Present(u.vehicleId) || !Truthy(u.lat) || !Truthy(u.long) then
      (Fail(BAD_REQUEST, MISSING_GPS), s)
    else
      var sample := Sample(u.vehicleId.value, u.lat.value, u.long.value, u.speed, OrElse(u.timestamp, Millis(now)));
      (Reply(OK, GpsUpdated), Put(s, sample))
  }

  /** GET /latest/:vehicleId. */
  function Latest(s: Store, vehicleId: string): (r: Response)
    ensures vehicleId in s.gpsData.entries ==> r == Reply(OK, OneSample(s.gpsData.entries[vehicleId]))
    ensures vehicleId !in s.gpsData.entries ==> r == Fail(NOT_FOUND, NO_DATA)
  {
    if vehicleId in s.gpsData.entries then Reply(OK, OneSample(s.gpsData.entries[vehicleId]))
    else Fail(NOT_FOUND, NO_DATA)
  }

  /** GET /all: every stored sample, in first-update order. */
  function All(s: Store): (samples: seq<Sample>)
    requires Valid(s)
    ensures |samples| == |s.gpsData.order|
    ensures forall i :: 0 <= i < |samples| ==> samples[i] == s.gpsData.entries[s.gpsData.order[i]]
  {
    IM.Values(s.gpsData)
  }

  /** `/all` lists exactly one sample per vehicle id ever updated, and it is
      that vehicle's latest. */
  lemma AllOnePerVehicle(s: Store)
    requires Valid(s)
    ensures var samples := All(s);
      && (forall i, j :: 0 <= i < j < |samples| ==> samples[i].vehicleId != samples[j].vehicleId)
      && (forall i :: 0 <= i < |samples| ==> samples[i].vehicleId in s.gpsData.entries && samples[i] == s.gpsData.entries[samples[i].vehicleId])
      && (forall id :: id in s.gpsData.entries ==> exists i :: 0 <= i < |samples| && samples[i].vehicleId == id)
  {
    var samples := All(s);
    forall id | id in s.gpsData.entries
      ensures exists i :: 0 <= i < |samples| && samples[i].vehicleId == id
    {
      var i :| 0 <= i < |s.gpsData.order| && s.gpsData.order[i] == id;
      assert samples[i].vehicleId == id;
    }
  }

  /** A vehicle with a stored sample appears in `/all`. */
  lemma StoredIsListed(s: Store, vehicleId: string)
    requires Valid(s)
    requires vehicleId in s.gpsData.entries
    ensures exists i :: 0 <= i < |All(s)| && All(s)[i].vehicleId == vehicleId
  {
    AllOnePerVehicle(s);
  }

  /** The body of an accident report; none of it is validated. */
  datatype Accident = Accident(vehicleId: Option<Value>, location: Option<Value>, speed: Option<Value>, details: Option<Value>, timestamp: Option<Value>)

  /** POST /report-accident at time `now`. */
  function ReportAccident(s: Store, a: Accident, now: nat): (r: (Response, Store))
    ensures |r.1.accidentHistory| == |s.accidentHistory| + 1
    ensures r.1.accidentHistory[..|s.accidentHistory|] == s.accidentHistory
    ensures var rec := r.1.accidentHistory[|s.accidentHistory|];
      && rec.vehicleId == a.vehicleId && rec.location == a.location
      && rec.speed == a.speed && rec.details == a.details
      && (Truthy(a.timestamp) ==> Some(rec.timestamp) == a.timestamp)
      && (!Truthy(a.timestamp) ==> rec.timestamp == Millis(now))
      && r.0 == Reply(OK, AccidentRecorded(rec))
    ensures r.1.gpsData == s.gpsData
  {
    var rec := AccidentRecord(a.vehicleId, a.location, a.speed, a.details, OrElse(a.timestamp, Millis(now)));
    (Reply(OK, AccidentRecorded(rec)), s.(accidentHistory := s.accidentHistory + [rec]))
  }

  /** GET /accidents. */
  function Accidents(s: Store): (r: Response)
    ensures r.status == OK && r.body.Json? && r.body.payload.AccidentList?
    ensures r.body.payload.records == s.accidentHistory
  {
    Reply(OK, AccidentList(s.accidentHistory))
  }

  /** A posted update is what `/latest` returns afterwards, until the next update for that vehicle. */
  lemma UpdateThenLatest(s: Store, u: Update, now: nat)
    requires Valid(s)
    requires Present(u.vehicleId) && Truthy(u.lat) && Truthy(u.long)
    ensures var r := PostUpdate(s, u, now);
      Latest(r.1, u.vehicleId.value) == Reply(OK, OneSample(Sample(u.vehicleId.value, u.lat.value, u.long.value, u.speed, OrElse(u.timestamp, Millis(now)))))
  {
  }

  /** Latitude or longitude 0 counts as missing. */
  lemma ZeroCoordinateRejected(s: Store, u: Update, now: nat)
    requires Valid(s)
    requires u.lat == Some(Num(0.0)) || u.long == Some(Num(0.0))
    ensures PostUpdate(s, u, now) == (Fail(BAD_REQUEST, MISSING_GPS), s)
  {
  }
}

=== FILE: workers.dfy ===
/** The per-vehicle task tables: simulated telemetry timers and detached
    ledger-connected worker processes. Each table holds at most one entry
    per key, by construction: both are maps. */
module Workers {
  import opened Base
  import opened Js
  import opened Entities
  import opened Http
  import opened Oracles
  import Telemetry

  /** The position a simulated timer carries from one tick to the next. */
  datatype Position = Position(lat: real, long: real)

  /** Where every simulated vehicle starts. */
  const ORIGIN := Position(12.9716, 77.5946)

  /** A worker process handle; only its identity matters here. */
  type Pid = nat

  datatype Tasks = Tasks(timers: map<string, Position>, chainClients: map<string, Pid>)

  const PRIVATE_KEY_REQUIRED := "privateKey is required"
  const SPAWN_FAILED := "Failed to start chain vehicle client"

  function Initial(): (w: Tasks)
    ensures w.timers == map[] && w.chainClients == map[]
  {
    Tasks(map[], map[])
  }

  /** `startSimulatedClient`: start a timer for `vehicleId` unless one is already running. */
  function StartSimulated(w: Tasks, vehicleId: string): (r: (RunStatus, Tasks))
    ensures vehicleId in w.timers ==> r == (AlreadyRunning, w)
    ensures vehicleId !in w.timers ==> r.0 == Started && r.1.timers == w.timers[vehicleId := ORIGIN]
    ensures r.1.timers.Keys == w.timers.Keys + {vehicleId}
    ensures forall id :: id in w.timers ==> r.1.timers[id] == w.timers[id]
    ensures r.1.chainClients == w.chainClients
  {
    if vehicleId in w.timers then (AlreadyRunning, w)
    else (Started, w.(timers := w.timers[vehicleId := ORIGIN]))
  }

  /** POST /vehicles/:vehicleId/client/start. */
  function StartClient(w: Tasks, vehicleId: string): (r: (Response, Tasks))
    ensures vehicleId == "" ==> r == (Fail(BAD_REQUEST, VEHICLE_ID_REQUIRED), w)
    ensures vehicleId != "" ==> r.0 == Reply(OK, ClientState(if vehicleId in w.timers then AlreadyRunning else Started, vehicleId, false))
    // a non-empty id ends up with a running timer, a new one at the start
    // position; no other timer and no chain worker changes
    ensures vehicleId != "" ==>
      && r.1.timers.Keys == w.timers.Keys + {vehicleId}
      && (vehicleId !in w.timers ==> r.1.timers[vehicleId] == ORIGIN)
      && (forall id :: id in w.timers ==> r.1.timers[id] == w.timers[id])
      && r.1.chainClients == w.chainClients
  {
    if vehicleId == "" then (Fail(BAD_REQUEST, VEHICLE_ID_REQUIRED), w)
    else
      var (status, w') := StartSimulated(w, vehicleId);
      (Reply(OK, ClientState(status, vehicleId, false)), w')
  }

  /** The speed a tick reports: `floor(random * 60) + 20`, forced to 0 when a
      second draw exceeds 0.95. */
  function TickSpeed(speedDraw: Draw, stopDraw: Draw): (speed: int)
    ensures speed == 0 <==> stopDraw > 0.95
    ensures speed != 0 ==> 20 <= speed <= 79
  {
    if stopDraw > 0.95 then 0 else (speedDraw * 60.0).Floor + 20
  }

  /** Every speed in [20, 79] is produced by some draw, and so is 0: the range is exact. */
  lemma TickSpeedRange(speed: int)
    requires speed == 0 || 20 <= speed <= 79
    ensures exists sd: Draw, st: Draw :: TickSpeed(sd, st) == speed
  {
    if speed == 0 {
      assert TickSpeed(0.0, 0.96) == 0;
    } else {
      var sd: Draw := (speed - 20) as real / 60.0;
      assert sd * 60.0 == (speed - 20) as real;
      assert TickSpeed(sd, 0.0) == speed;
    }
  }

  /** The random draws of one tick. */
  datatype TickDraws = TickDraws(lat: Draw, long: Draw, speed: Draw, stop: Draw)

  /** One firing of the timer of `vehicleId` at time `now`: drift the
      position by at most 0.0005 in each coordinate, pick a speed, and
      overwrite the vehicle's latest sample. */
  function Tick(w: Tasks, s: Telemetry.Store, vehicleId: string, d: TickDraws, now: nat): (r: (Tasks, Telemetry.Store))
    requires vehicleId in w.timers
    requires Telemetry.Valid(s)
    ensures Telemetry.Valid(r.1)
    ensures r.0.timers.Keys == w.timers.Keys && r.0.chainClients == w.chainClients
    ensures var p, q := w.timers[vehicleId], r.0.timers[vehicleId];
      -0.0005 <= q.lat - p.lat < 0.0005 && -0.0005 <= q.long - p.long < 0.0005
    ensures forall id :: id in w.timers && id != vehicleId ==> r.0.timers[id] == w.timers[id]
    ensures r.1.accidentHistory == s.accidentHistory
    ensures r.1.gpsData.entries.Keys == s.gpsData.entries.Keys + {vehicleId}
    ensures forall id :: id in s.gpsData.entries && id != vehicleId ==> r.1.gpsData.entries[id] == s.gpsData.entries[id]
    ensures vehicleId in s.gpsData.entries ==> r.1.gpsData.order == s.gpsData.order
    ensures vehicleId !in s.gpsData.entries ==> r.1.gpsData.order == s.gpsData.order + [vehicleId]
    ensures var sample := r.1.gpsData.entries[vehicleId];
      && sample.lat == Num(r.0.timers[vehicleId].lat)
      && sample.long == Num(r.0.timers[vehicleId].long)
      && sample.timestamp == Millis(now)
      && sample.speed.Some? && sample.speed.value.Num?
      && var n := sample.speed.value.n;
         n == n.Floor as real && (n == 0.0 <==> d.stop > 0.95) && (n == 0.0 || 20.0 <= n <= 79.0)
  {
    var p := w.timers[vehicleId];
    var q := Position(p.lat + (d.lat - 0.5) * 0.001, p.long + (d.long - 0.5) * 0.001);
    var speed := TickSpeed(d.speed, d.stop);
    var sample := Sample(vehicleId, Num(q.lat), Num(q.long), Some(Num(speed as real)), Millis(now));
    (w.(timers := w.timers[vehicleId := q]), Telemetry.Put(s, sample))
  }

  /** The worker-table key of a chain-mode client. */
  function ChainKey(vehicleId: string): (key: string)
    ensures |key| == |vehicleId| + 6 && key[..|vehicleId|] == vehicleId
  {
    vehicleId + ":chain"
  }

  /** Distinct vehicles never share a worker slot. */
  lemma ChainKeyInjective(a: string, b: string)
    requires ChainKey(a) == ChainKey(b)
    ensures a == b
  {
    assert a == ChainKey(a)[..|a|];
    assert b == ChainKey(b)[..|b|];
  }

  /** The outcome of `spawn`: a process handle, or a thrown error whose
      message may be missing. */
  datatype Spawn = Spawned(pid: Pid) | SpawnThrew(message: Option<string>)

  /** POST /vehicles/:vehicleId/client/start-chain. */
  function StartChain(w: Tasks, vehicleId: string, privateKey: Option<string>, spawn: Spawn): (r: (Response, Tasks))
    ensures r.1.timers == w.timers
    ensures r.1.chainClients != w.chainClients <==>
      vehicleId != "" && Present(privateKey) && ChainKey(vehicleId) !in w.chainClients && spawn.Spawned?
    ensures r.1.chainClients != w.chainClients ==>
      r.1.chainClients == w.chainClients[ChainKey(vehicleId) := spawn.pid] && r.0 == Reply(OK, ClientState(Started, vehicleId, true))
    ensures vehicleId != "" && Present(privateKey) && ChainKey(vehicleId) in w.chainClients ==>
      r.0 == Reply(OK, ClientState(AlreadyRunning, vehicleId, true))
    ensures r.0.status == BAD_REQUEST <==> vehicleId == "" || !Present(privateKey)
    ensures vehicleId == "" ==> r.0 == Fail(BAD_REQUEST, VEHICLE_ID_REQUIRED)
    ensures vehicleId != "" && !Present(privateKey) ==> r.0 == Fail(BAD_REQUEST, PRIVATE_KEY_REQUIRED)
    // a throwing spawn answers 500 and registers no worker
    ensures vehicleId != "" && Present(privateKey) && ChainKey(vehicleId) !in w.chainClients && spawn.SpawnThrew? ==>
      r == (Fail(SERVER_ERROR, spawn.message.GetOr(SPAWN_FAILED)), w)
  {
    if vehicleId == "" then (Fail(BAD_REQUEST, VEHICLE_ID_REQUIRED), w)
    else if !Present(privateKey) then (Fail(BAD_REQUEST, PRIVATE_KEY_REQUIRED), w)
    else
      var key := ChainKey(vehicleId);
      if key in w.chainClients then (Reply(OK, ClientState(AlreadyRunning, vehicleId, true)), w)
      else match spawn
        case SpawnThrew(m) => (Fail(SERVER_ERROR, m.GetOr(SPAWN_FAILED)), w)
        case Spawned(pid) => (Reply(OK, ClientState(Started, vehicleId, true)), w.(chainClients := w.chainClients[key := pid]))
  }

  /** The worker registered under `key` exited: its entry goes, nothing else moves. */
  function ChainExit(w: Tasks, key: string): (r: Tasks)
    ensures key !in r.chainClients
    ensures forall k :: k != key ==> (k in r.chainClients <==> k in w.chainClients)
    ensures forall k :: k in r.chainClients ==> r.chainClients[k] == w.chainClients[k]
    ensures r.timers == w.timers
  {
    w.(chainClients := w.chainClients - {key})
  }

  /** After an exit the vehicle's chain client can be started again. */
  lemma ExitThenRestart(w: Tasks, vehicleId: string, privateKey: string, pid: Pid)
    requires vehicleId != "" && privateKey != ""
    ensures StartChain(ChainExit(w, ChainKey(vehicleId)), vehicleId, Some(privateKey), Spawned(pid)).0
      == Reply(OK, ClientState(Started, vehicleId, true))
  {
  }
}
